=== FILE: README.md ===
# File storage service — a Dafny model

This project models `main.py`, the flat file store behind a small HTTP API.
The store offers four operations:

- upload: `store_file`, POST /files;
- download: `get_file`, GET /files/{filename};
- listing: `list_files`, GET /files;
- the integer fields of `metrics`, GET /metrics.

The model also covers the start-up code. It creates the `storage` directory and seeds the in-memory upload counter with the number of files already there (`get_file_count`).

The state is the whole host filesystem plus two more fields: the absolute path of the storage directory and the counter (`Store.Server`).

- The filesystem is a finite map from absolute paths to entries (`FileSystem.Fs`). An entry is either a regular file holding bytes or a directory.
- The stored objects are not a separate map. They are read off the filesystem by `Store.Files`: name to content for every regular file directly inside the storage directory, as `iterdir()` filtered by `is_file()` yields them.

Keeping the whole tree lets the model hold `get_file`'s `exists()` apart from the `is_file()` that listing and metrics use. It also lets `exists()` walk the path physically, one segment at a time (`FileSystem.Walk`), while the containment check resolves it lexically (`PosixPath.Normalize`).

The modules follow the program's layers:

- `PosixPath` (posix_path.dfy): `os.path.basename`, checked against an independent reference definition (the last component of the name split on '/'); pathlib's parsing of a joined name and lexical resolution of `..`.
- `FileSystem` (filesystem.dfy): a well-formed tree and the operating system's walk of a path.
- `Store` (store.dfy) defines:
  - the server state and the stored objects;
  - the sum of stored sizes;
  - start-up.
- `Handlers` (handlers.dfy): the four request handlers.
- `Service` (service.dfy): requests applied one after another, and the counter invariant.

Behaviour the model follows, as the code does it:

- Upload names:
  - The name check keeps the basename of the client's filename. So `../../etc/passwd` is stored as `passwd` inside the storage directory; it is not refused.
  - Only a basename that is empty, `.` or `..` is refused.
  - That refusal raises a 400 inside the `try`. The catch-all handler turns it into a 500, like every other upload failure (`Failed(500, InvalidName)`).
- Upload I/O failures are an explicit parameter (`Handlers.Fault`):
  - reading the body fails;
  - opening the target fails;
  - the write fails after some bytes.
  - Reading the body or opening the file (or a directory in the way) changes nothing.
  - A write that fails after `open(..., "wb")` (main.py:134-135) leaves the truncated file behind; there is no temporary file and rename. The counter is not raised.
  - So `files_stored_counter == number of files` holds for runs in which no write of a name not yet present is interrupted (`Service.RunKeepsCounterInvariant`). An interrupted overwrite keeps it, because the name was already counted (`Service.InterruptedOverwriteKeepsCounter`); an interrupted write of a new name breaks it (`Service.InterruptedWriteDesyncsCounter`).
- Downloads:
  - The containment check refuses with 400 any name whose lexically resolved path leaves the storage directory (`..`, `../x`).
  - A detour back in is allowed: `../storage/x` reaches exactly what `x` does (`Handlers.GetReentersStorage`).
  - `.` and the empty name pass both checks, because the storage directory itself exists. The model answers `NotARegularFile` there, since the response layer cannot send a directory.
  - A name starting with `/` replaces the storage prefix, as pathlib's `/` operator does, and is then refused by containment unless it points back inside.
- Listing and metrics read the directory at call time. So an object placed there by someone other than the service is listed, counted and served, but not counted by the upload counter.

## Model

| member | source | states |
|---|---|---|
| PosixPath.Basename | main.py:123 | the basename has no '/', is a suffix of the name, and is preceded by '/' whenever it is shorter than the name: the text after the last '/' |
| PosixPath.RFind | main.py:123 | the index found holds the character and no later index does; -1 when the character is absent |
| PosixPath.BasenameIsLastComponent | main.py:123 | the basename is the last component of the name split on '/' |
| PosixPath.SplitJoin | main.py:123 | the reference split on '/' is inverted by joining: splitting a join of slash-free components restores them |
| PosixPath.JoinSplit | main.py:123 | and joining the components of a name restores the name |
| PosixPath.BasenameAfterDirectory | main.py:123 | whatever precedes the last '/' does not change the basename |
| PosixPath.IsPrefixIsRelativeTo | main.py:93 | the segment-prefix test is pathlib's `is_relative_to`: the root is the path itself or one of its parents |
| PosixPath.Segments | main.py:90 | joining a name to the storage path keeps only entry names and `..` as segments |
| PosixPath.SegmentsAppend | main.py:90 | parsing distributes over a '/' joint |
| PosixPath.SegmentsOfName | main.py:127 | a single entry name joins as exactly one segment |
| PosixPath.DotSegments | main.py:90 | `""` and `.` add no segment, `..` adds one |
| PosixPath.SegmentsReenter | main.py:90 | `../storage/n` parses as `..`, `storage`, then the segments of `n` |
| PosixPath.NormalizeFrom | main.py:93 | lexical resolution of a parsed path yields a path with no `.`, `..` or empty segment |
| PosixPath.NormalizeAppend | main.py:93 | resolving `a + b` is resolving `a` and then `b` from where `a` ended |
| PosixPath.NormalizeOfNormal | main.py:93 | a path without `..` resolves to itself |
| PosixPath.NormalizeIdempotent | main.py:93 | resolving a resolved path changes nothing |
| PosixPath.NormalizeUpThenDown | main.py:93 | `..` then a name replaces the last segment by that name |
| FileSystem.Walk | main.py:96 | the operating system's walk of a path ends, when it ends, on an existing entry |
| FileSystem.WalkAgreesWithNormalize | main.py:93-96 | without symbolic links, the entry `exists()` reaches is the path the containment check resolved |
| FileSystem.WalkAppend | main.py:96 | a walk over `a + b` continues the walk over `a` |
| FileSystem.LookupOfEntry | main.py:96 | every existing entry is reached by its own path |
| FileSystem.WriteKeepsValid | main.py:134-135 | writing a regular file into an existing directory keeps the tree well formed |
| Store.Files | main.py:161 | the stored objects are exactly the regular files directly inside the storage directory, with their contents |
| Store.FilesAfterWrite | main.py:134-135 | writing one file inside the storage directory changes that object only: the map becomes the old map with `name := data` |
| Store.FilesHaveValidNames | main.py:161 | every stored object's name is an entry name |
| Store.TotalBytesRemove | main.py:191 | the byte total does not depend on which object is summed first |
| Store.TotalBytesReplace | main.py:191 | replacing one object's content keeps the count and swaps its size in the total |
| Store.SumSizesIsTotal | main.py:191 | summing the sizes along any duplicate-free listing gives the order-independent total |
| Store.Boot | main.py:55-58 | start-up fails exactly when a regular file stands at the storage path; otherwise the storage directory exists, the stored objects are those already there, and the counter starts at their number |
| Store.StorageDirectory | main.py:14-15 | `mkdir(exist_ok=True)` leaves a valid tree with the storage directory and the same stored objects |
| Store.BootCreatesEmptyStorage | main.py:15 | a newly created storage directory holds no objects |
| Handlers.SanitizeUploadName | main.py:123-125 | a name is accepted exactly when its basename is an entry name (not empty, `.` or `..`, no '/'); the accepted name is that basename |
| Handlers.SanitizeKeepsEntryNames | main.py:123-125 | an entry name is accepted unchanged, and only an entry name is |
| Handlers.SanitizeIdempotent | main.py:123-125 | sanitising an accepted name again gives the same name |
| Handlers.SanitizeDropsDirectories | main.py:123-125 | directory parts, `..` included, are dropped rather than refused |
| Handlers.StoreFile | main.py:121-149 | an upload succeeds exactly when nothing fails, the basename is valid and no directory is in the way. Success reports the sanitised name and the content size, writes the content and counts the name only if it was new. Every failure is a 500 with the counter unchanged; a failure before the write changes nothing, and an interrupted write leaves only a prefix of the content |
| Handlers.StoreNamed | main.py:127-147 | the same, once the name has passed the check |
| Handlers.Truncated | main.py:134-135 | an interrupted write leaves a prefix of the content |
| Handlers.WriteObject | main.py:134-135 | `open(..., "wb")` and `write` make the target a regular file with exactly the written bytes and keep the tree well formed |
| Handlers.UploadUpdatesFiles | tests/test_post_file.py:22-28 | after a completed upload the stored objects are the old ones with `name := content` |
| Handlers.CounterRisesExactlyOnNewNames | main.py:133-140 | the counter rises by one when the name was not stored before and stays put on overwrite |
| Handlers.FailedUploadFrame | main.py:148-149 | an upload with a fault, a refused name or a directory in the way fails; it keeps the counter and every other object; the target is unchanged or holds a prefix of the content |
| Handlers.RequestedPath | main.py:90 | `STORAGE_DIR / filename`: a relative name lands below the storage directory, and with a normal storage path every segment is an entry name or `..` |
| Handlers.RelativeJoinIsConcatenation | main.py:90 | joining a relative name is parsing the two joined by '/' |
| Handlers.AbsoluteJoinIgnoresRoot | main.py:90 | an absolute name replaces the storage prefix: the result is the same whatever the storage directory |
| Handlers.Status | main.py:94-103 | a download is 2xx exactly when served, 4xx exactly for the containment refusal (400) and a missing path (404), and 500 for a directory the response cannot send |
| Handlers.GetFile | main.py:90-103 | whatever is served is the content of a regular file inside the storage directory |
| Handlers.Fetch | main.py:96-103 | after the containment check, only a regular file's content is served |
| Handlers.FetchEntry | main.py:96-103 | an existing entry reached by its own path is served if it is a regular file and refused otherwise |
| Handlers.GetAgreesWithFiles | tests/test_get_file_by_name.py:20-22 | for an entry name the download returns the stored content, 404 when nothing is there, and a non-file answer for a directory |
| Handlers.DownloadStatus | main.py:93-97 | for an entry name the download answers 200 exactly when the object is stored, 404 exactly when nothing is there, and never 400 |
| Handlers.UploadThenGet | main.py:90-147 | downloading the name an upload reported returns the uploaded bytes |
| Handlers.GetStorageDirectoryItself | main.py:93-99 | `.` and the empty name pass both checks and land on the storage directory |
| Handlers.GetOfStorageDirectory | main.py:93-99 | any name that joins to the storage directory itself passes both checks and is answered as a directory |
| Handlers.GetParentRefused | main.py:93-94 | `..` is refused with 400 |
| Handlers.GetSiblingRefused | main.py:93-94 | `../x` for any other entry name `x` is refused with 400 |
| Handlers.GetReentersStorage | main.py:90-96 | `../storage/n` gives the same answer as `n` |
| Handlers.DetourNormalizesAway | main.py:93 | lexically, `storage/../storage` is `storage` |
| Handlers.DetourWalksAway | main.py:96 | physically, the walk through the parent and back ends where it started |
| Handlers.ListFiles | tests/test_list_files.py:18-19 | the listing holds every stored name exactly once and nothing else, and the count is its length |
| Handlers.GetMetrics | main.py:190-196 | `files_stored_total` is the counter, `files_current` the number of stored objects, `total_storage_bytes` the sum of their sizes |
| Handlers.SumListed | main.py:191 | the running sum over the listing is the ordered sum of the listed sizes |
| Handlers.DistinctCount | main.py:195 | a duplicate-free listing of the objects is as long as there are objects |
| Handlers.OverwriteMetrics | main.py:190-196 | an overwrite keeps `files_current` and swaps the old size for the new one in `total_storage_bytes` |
| Service.Next | main.py:138-140 | only uploads change the state, and the counter never decreases |
| Service.Run | main.py:138-140 | over any sequence of requests the counter never decreases |
| Service.NextKeepsCounterInvariant | main.py:133-140 | every request except an interrupted write of an entry name not yet present keeps `counter == number of stored objects` |
| Service.UploadKeepsCounterInvariant | main.py:133-140 | an upload, successful or not, keeps `counter == number of stored objects` unless it is an interrupted write of an entry name not yet present |
| Service.InterruptedOverwriteKeepsCounter | main.py:133-140 | a write interrupted over a name already present keeps `counter == number of stored objects` |
| Service.NoPartialWriteLeavesNothingUncounted | main.py:133-140 | a run with no interrupted write at all meets the run hypothesis of the invariant |
| Service.RunKeepsCounterInvariant | main.py:133-140 | so does every sequence of requests each of which, in the state it meets, is not an interrupted write of a new name |
| Service.BootThenRun | main.py:55-58 | from start-up on, the counter equals the number of stored objects after every such run |
| Service.InterruptedWriteDesyncsCounter | main.py:133-140 | an interrupted write of a new name leaves one more stored object than the counter says |
| Service.CompletedNewUpload | main.py:123-140 | a completed upload whose sanitised name is new adds that file under the sanitised name and raises the counter by one |
| Service.DistinctNewUploadsCount | main.py:123-140 | completed uploads whose sanitised names are distinct and new raise the counter by exactly their number, whatever directory parts the client's file names carry |

## Left out

- The `log_endpoint` decorator (main.py:25-52): it only times and logs calls and has no functional effect.
- The `root` and `health_check` handlers (main.py:61-72, 165-178): constant payloads and a wall-clock timestamp.
- `total_storage_mb` and `timestamp` in `metrics` (main.py:197-198): floating-point division with rounding, and the clock.
- `content_type` in the upload reply, and FastAPI's routing, multipart parsing and `FileResponse` streaming. The `{filename}` route cannot deliver a name containing '/'. The model accepts any string there, which covers more inputs than the route lets through.
- An upload whose filename is missing (`None`), which fails in `os.path.basename`: the model takes the filename as a string.
- Symbolic links: `Path.resolve()` is modelled as lexical resolution of `..`. With links inside the storage directory, the physical and lexical answers can differ.
- Names with a NUL byte, and permission or other operating-system errors raised by `exists()` or `iterdir()`. A `stat()` that fails during `metrics` is left out too.
- Concurrency: requests are applied one after another. Within `store_file` the only suspension point is the body read (main.py:130), which comes before the existence test, so on a single event loop one upload's test, write and counter update (main.py:133-140) are not interleaved with another request, and applying requests in sequence is faithful for them. That argument stops at the response: `FileResponse` reads the file on worker threads after `get_file` returns, so a download can observe a later upload's truncate-then-write; that interleaving is not modelled. Several worker processes would each hold their own counter, which is not modelled either.
- Filesystem changes made outside the service (creating, deleting or modifying files) are not requests in `Service.Run`. They show up only through `Store.Files` on the state the requests see.
- The host is POSIX: `os.path` is `posixpath`. Windows path rules (`\` as a separator, drive letters) are not modelled.
- `locustfile.py`: a load generator making network calls.
- Handlers.StoreFile: the I/O failures are limited to the three failures of `Handlers.Fault`, plus a directory at the target. Any other exception inside the `try` is also turned into a 500, and is not enumerated.

=== FILE: filesystem.dfy ===
/** The host filesystem the service runs on, as a finite map from absolute
    paths to entries. Lookups walk a path one segment at a time as the
    operating system does: every step below the filesystem root must go
    through a directory, and `..` moves to the parent directory. No symbolic
    links are modelled. */
module FileSystem {
  import opened PosixPath

  type Bytes = seq<bv8>

  /** A directory entry: a regular file with its contents, or a directory. */
  datatype Node = File(data: Bytes) | Dir

  /** Every entry except the filesystem root, which is always a directory. */
  type Fs = map<Path, Node>

  /** `p` names the filesystem root or an entry of any kind (`Path.exists`). */
  predicate Exists(fs: Fs, p: Path) {
    p == [] || p in fs
  }

  predicate IsDir(fs: Fs, p: Path) {
    p == [] || (p in fs && fs[p].Dir?)
  }

  predicate IsFile(fs: Fs, p: Path) {
    p in fs && fs[p].File?
  }

  /** A well-formed tree: every entry has a normal path whose parent is a
      directory. */
  predicate Valid(fs: Fs) {
    // The trigger keeps the parent chain from being unfolded on its own;
    // proofs ask for `WellPlaced` of the entries they need.
    forall p {:trigger WellPlaced(fs, p)} :: p in fs ==> WellPlaced(fs, p)
  }

  /** `p` is a normal path below the filesystem root whose parent is a
      directory. */
  predicate WellPlaced(fs: Fs, p: Path) {
    |p| >= 1 && IsNormal(p) && IsDir(fs, Parent(p))
  }

  /** Follow `segs` from the existing entry `cur` the way the operating
      system resolves a path; None when a step meets a missing entry or
      tries to descend through something that is not a directory. */
  function Walk(fs: Fs, cur: Path, segs: Path): (r: Option<Path>)
    requires Valid(fs)
    requires Exists(fs, cur)
    ensures r.Some? ==> Exists(fs, r.value)
    decreases |segs|
  {
    if |segs| == 0 then Some(cur)
    else if !IsDir(fs, cur) then None
    else if segs[0] == ".." then
      assert cur == [] || WellPlaced(fs, cur);
      Walk(fs, Parent(cur), segs[1..])
    else if cur + [segs[0]] in fs then Walk(fs, cur + [segs[0]], segs[1..])
    else None
  }

  /** Whether the absolute path `p` resolves to an entry. */
  function Lookup(fs: Fs, p: Path): Option<Path>
    requires Valid(fs)
  {
    Walk(fs, [], p)
  }

  /** When the walk succeeds it ends where lexical normalisation says: with
      no symbolic links the physical and the lexical `..` agree. */
  lemma {:induction false} WalkAgreesWithNormalize(fs: Fs, cur: Path, segs: Path)
    requires Valid(fs)
    requires Exists(fs, cur)
    ensures Walk(fs, cur, segs).Some? ==> Walk(fs, cur, segs).value == NormalizeFrom(cur, segs)
    decreases |segs|
  {
    if |segs| > 0 && IsDir(fs, cur) {
      if segs[0] == ".." {
        assert cur == [] || WellPlaced(fs, cur);
        WalkAgreesWithNormalize(fs, Parent(cur), segs[1..]);
      } else if cur + [segs[0]] in fs {
        WalkAgreesWithNormalize(fs, cur + [segs[0]], segs[1..]);
      }
    }
  }

  /** A walk over `a + b` is a walk over `a` followed by a walk over `b`. */
  lemma {:induction false} WalkAppend(fs: Fs, cur: Path, a: Path, b: Path)
    requires Valid(fs)
    requires Exists(fs, cur)
    ensures Walk(fs, cur, a + b) ==
              match Walk(fs, cur, a)
              case None => None
              case Some(mid) => Walk(fs, mid, b)
    decreases |a|
  {
    if |a| == 0 {
      assert a + b == b;
    } else {
      assert (a + b)[0] == a[0] && (a + b)[1..] == a[1..] + b;
      if IsDir(fs, cur) {
        if a[0] == ".." {
          assert cur == [] || WellPlaced(fs, cur);
          WalkAppend(fs, Parent(cur), a[1..], b);
        } else if cur + [a[0]] in fs {
          WalkAppend(fs, cur + [a[0]], a[1..], b);
        }
      }
    }
  }

  /** Every existing entry is reached by walking its own path. */
  lemma {:induction false} LookupOfEntry(fs: Fs, p: Path)
    requires Valid(fs)
    requires Exists(fs, p)
    ensures Lookup(fs, p) == Some(p)
    decreases |p|
  {
    if |p| > 0 {
      var q, x := Parent(p), p[|p| - 1];
      assert WellPlaced(fs, p);
      assert IsDir(fs, q);
      LookupOfEntry(fs, q);
      WalkAppend(fs, [], q, [x]);
      assert IsNormal(p) && ValidName(p[|p| - 1]);
      assert Walk(fs, q, [x]) == Walk(fs, p, []);
    }
  }

  /** Replacing or creating a regular file inside an existing directory keeps
      the tree well formed. */
  lemma WriteKeepsValid(fs: Fs, dir: Path, n: string, data: Bytes)
    requires Valid(fs)
    requires IsDir(fs, dir) && IsNormal(dir)
    requires ValidName(n)
    requires !IsDir(fs, dir + [n])
    ensures Valid(fs[dir + [n] := File(data)])
  {
    var target := dir + [n];
    var fs' := fs[target := File(data)];
    assert Parent(target) == dir;
    forall p | p in fs'
      ensures WellPlaced(fs', p)
    {
      if p == target {
        assert IsNormal(target);
      } else {
        assert WellPlaced(fs, p);
      }
    }
  }
}

=== FILE: handlers.dfy ===
/** The four request handlers of the file service with the framework
    stripped away: `store_file` (POST /files), `get_file` (GET
    /files/{filename}), `list_files` (GET /files) and the integer fields of
    `metrics` (GET /metrics). */
module Handlers {
  import opened PosixPath
  import opened FileSystem
  import opened Store

  // ---------------------------------------------------------------------
  // POST /files

  /** What goes wrong, if anything, in the I/O of one upload: reading the
      request body, opening the target for writing, or writing after some
      bytes have reached the file. */
  datatype Fault = NoFault | ReadFails | OpenFails | WriteFailsAfter(written: nat)

  datatype UploadError = InvalidName | ReadFailed | IsADirectory | OpenFailed | WriteFailed

  /** The upload reply: the stored name and size, or the HTTP status of the
      failure with its cause. */
  datatype UploadResponse =
    | Stored(filename: string, size: nat)
    | Failed(status: nat, cause: UploadError)

  datatype UploadOutcome = UploadOutcome(server: Server, response: UploadResponse)

  /** The upload name check: keep the basename, and refuse it when it is
      empty, `.` or `..`. What is accepted is exactly the basenames that
      name a directory entry. */
  function SanitizeUploadName(filename: string): (r: Option<string>)
    ensures r.Some? <==> ValidName(Basename(filename))
    ensures r.Some? ==> r.value == Basename(filename)
  {
    var name := Basename(filename);
    if name == "" || name == "." || name == ".." then None else Some(name)
  }

  /** An entry name is accepted unchanged, and only an entry name is. */
  lemma SanitizeKeepsEntryNames(n: string)
    ensures SanitizeUploadName(n) == Some(n) <==> ValidName(n)
  {
    if ValidName(n) {
      BasenameOfName(n);
    }
  }

  /** Sanitising is idempotent: an accepted name is accepted as itself. */
  lemma SanitizeIdempotent(filename: string)
    requires SanitizeUploadName(filename).Some?
    ensures SanitizeUploadName(SanitizeUploadName(filename).value) == SanitizeUploadName(filename)
  {
    SanitizeKeepsEntryNames(SanitizeUploadName(filename).value);
  }

  /** Directory parts of an upload name, `..` included, are discarded rather
      than refused. */
  lemma SanitizeDropsDirectories(d: string, n: string)
    requires '/' !in n
    ensures SanitizeUploadName(d + "/" + n) == SanitizeUploadName(n)
  {
    BasenameAfterDirectory(d, n);
    BasenameOfSlashFree(n);
  }

  /** `store_file`. The name check, the body read, the existence test, the
      write and the counter update all sit in one `try` whose handler turns
      every exception, the 400 of the name check included, into a 500. */
  function StoreFile(s: Server, filename: string, content: Bytes, fault: Fault): (out: UploadOutcome)
    requires ValidServer(s)
    ensures ValidServer(out.server) && out.server.root == s.root
    ensures out.response.Stored? <==>
              && fault == NoFault
              && ValidName(Basename(filename))
              && !IsDir(s.fs, Child(s.root, Basename(filename)))
    ensures out.response.Stored? ==>
              && out.response.filename == Basename(filename)
              && out.response.size == |content|
              && out.server.fs == s.fs[Child(s.root, Basename(filename)) := File(content)]
              && out.server.counter == s.counter + (if Child(s.root, Basename(filename)) in s.fs then 0 else 1)
    ensures out.response.Failed? ==> out.response.status == 500 && out.server.counter == s.counter
    ensures out.response.Failed? && !fault.WriteFailsAfter? ==> out.server == s
    ensures out.response.Failed? && fault.WriteFailsAfter? ==>
              || out.server == s
              || out.server.fs == s.fs[Child(s.root, Basename(filename)) := File(Truncated(content, fault.written))]
    ensures out.server.counter >= s.counter
  {
    match SanitizeUploadName(filename)
    case None => UploadOutcome(s, Failed(500, InvalidName))
    case Some(name) => StoreNamed(s, name, content, fault)
  }

  /** The part of `store_file` after the name check. The counter rises only
      after a completed write to a name that did not exist; a write that
      fails after opening leaves the truncated file behind. */
  function StoreNamed(s: Server, name: string, content: Bytes, fault: Fault): (out: UploadOutcome)
    requires ValidServer(s)
    requires ValidName(name)
    ensures ValidServer(out.server) && out.server.root == s.root
    ensures out.response.Stored? <==> fault == NoFault && !IsDir(s.fs, Child(s.root, name))
    ensures out.response.Stored? ==>
              && out.response.filename == name
              && out.response.size == |content|
              && out.server.fs == s.fs[Child(s.root, name) := File(content)]
              && out.server.counter == s.counter + (if Child(s.root, name) in s.fs then 0 else 1)
    ensures out.response.Failed? ==> out.response.status == 500 && out.server.counter == s.counter
    ensures out.response.Failed? && !fault.WriteFailsAfter? ==> out.server == s
    ensures out.response.Failed? && fault.WriteFailsAfter? ==>
              || out.server == s
              || out.server.fs == s.fs[Child(s.root, name) := File(Truncated(content, fault.written))]
    ensures out.server.counter >= s.counter
  {
    var target := Child(s.root, name);
    if fault == ReadFails then UploadOutcome(s, Failed(500, ReadFailed))
    else if IsDir(s.fs, target) then UploadOutcome(s, Failed(500, IsADirectory))
    else if fault == OpenFails then UploadOutcome(s, Failed(500, OpenFailed))
    else if fault.WriteFailsAfter? then
      UploadOutcome(WriteObject(s, name, Truncated(content, fault.written)), Failed(500, WriteFailed))
    else
      var existed := target in s.fs;
      var written := WriteObject(s, name, content);
      UploadOutcome(written.(counter := if existed then s.counter else s.counter + 1), Stored(name, |content|))
  }

  /** What a write interrupted after `k` bytes leaves in the file. */
  function Truncated(content: Bytes, k: nat): (kept: Bytes)
    ensures IsContentPrefix(kept, content)
  {
    if k < |content| then content[..k] else content
  }

  /** `open(storage / name, "wb")` followed by a write of `data`: the entry
      becomes a regular file holding `data`; the counter is not touched. */
  function WriteObject(s: Server, name: string, data: Bytes): (s': Server)
    requires ValidServer(s)
    requires ValidName(name) && !IsDir(s.fs, Child(s.root, name))
    ensures ValidServer(s') && s'.root == s.root && s'.counter == s.counter
    ensures s'.fs == s.fs[Child(s.root, name) := File(data)]
  {
    var fs' := s.fs[Child(s.root, name) := File(data)];
    assert Valid(fs') by {
      RootWellPlaced(s);
      WriteKeepsValid(s.fs, s.root, name, data);
    }
    assert |Child(s.root, name)| != |s.root|;
    Server(s.root, fs', s.counter)
  }

  /** A completed upload replaces or adds exactly one stored object. */
  lemma UploadUpdatesFiles(s: Server, filename: string, content: Bytes)
    requires ValidServer(s)
    requires StoreFile(s, filename, content, NoFault).response.Stored?
    ensures var out := StoreFile(s, filename, content, NoFault);
            Files(out.server.fs, s.root) == Files(s.fs, s.root)[out.response.filename := content]
  {
    FilesAfterWrite(s.fs, s.root, Basename(filename), content);
  }

  /** The counter rises by one exactly when the stored name was new. */
  lemma CounterRisesExactlyOnNewNames(s: Server, filename: string, content: Bytes)
    requires ValidServer(s)
    requires StoreFile(s, filename, content, NoFault).response.Stored?
    ensures var out := StoreFile(s, filename, content, NoFault);
            out.server.counter == s.counter + (if out.response.filename in Files(s.fs, s.root) then 0 else 1)
  {
  }

  /** An upload that fails before the file is opened changes nothing; one
      that fails while writing leaves the counter and every other object as
      they were, and the target holds a prefix of the content. */
  lemma FailedUploadFrame(s: Server, filename: string, content: Bytes, fault: Fault)
    requires ValidServer(s)
    requires fault != NoFault || !ValidName(Basename(filename)) || IsDir(s.fs, Child(s.root, Basename(filename)))
    ensures var out := StoreFile(s, filename, content, fault);
            && out.response.Failed?
            && out.server.counter == s.counter
            && (forall n :: n != Basename(filename) ==>
                  (n in Files(out.server.fs, s.root) <==> n in Files(s.fs, s.root)))
            && (forall n :: n in Files(s.fs, s.root) && n != Basename(filename) ==>
                  Files(out.server.fs, s.root)[n] == Files(s.fs, s.root)[n])
            && (out.server == s ||
                  (Basename(filename) in Files(out.server.fs, s.root) &&
                   IsContentPrefix(Files(out.server.fs, s.root)[Basename(filename)], content)))
  {
    var out := StoreFile(s, filename, content, fault);
    if out.server != s {
      FilesAfterWrite(s.fs, s.root, Basename(filename), Truncated(content, fault.written));
    }
  }

  /** `a` is a leading part of the content `b`. */
  predicate IsContentPrefix(a: Bytes, b: Bytes) {
    |a| <= |b| && a == b[..|a|]
  }

  // ---------------------------------------------------------------------
  // GET /files/{filename}

  /** The download reply. `NotARegularFile` is a path that passes both
      checks but names a directory, which the response layer cannot send. */
  datatype GetResponse = Served(data: Bytes) | BadRequest | NotFound | NotARegularFile

  /** The HTTP status of a download reply. */
  function Status(r: GetResponse): (code: nat)
    ensures 200 <= code < 600
    ensures code < 300 <==> r.Served?
    ensures 400 <= code < 500 <==> r.BadRequest? || r.NotFound?
  {
    match r
    case Served(_) => 200
    case BadRequest => 400
    case NotFound => 404
    case NotARegularFile => 500
  }

  /** `STORAGE_DIR / filename`: an absolute name replaces the storage prefix. */
  function RequestedPath(root: Path, name: string): (p: Path)
    ensures !IsAbsolute(name) ==> IsPrefix(root, p)
    ensures IsNormal(root) ==> forall i :: 0 <= i < |p| ==> IsSegment(p[i])
  {
    if IsAbsolute(name) then Segments(name) else root + Segments(name)
  }

  /** Joining a relative name to a path is parsing the two joined by '/'. */
  lemma RelativeJoinIsConcatenation(a: string, name: string)
    requires !IsAbsolute(name)
    ensures RequestedPath(Segments(a), name) == Segments(a + "/" + name)
  {
    SegmentsAppend(a, name);
  }

  /** An absolute name replaces the storage prefix: where it leads does not
      depend on the storage directory. */
  lemma AbsoluteJoinIgnoresRoot(root: Path, other: Path, name: string)
    requires IsAbsolute(name)
    ensures RequestedPath(root, name) == RequestedPath(other, name) == Segments(name)
  {
  }

  /** `get_file`: refuse with 400 a name whose lexically resolved path is not
      inside the storage directory, with 404 one that does not exist, and
      otherwise send what is there. Whatever is served is the content of a
      regular file inside the storage directory. */
  function GetFile(s: Server, name: string): (r: GetResponse)
    requires ValidServer(s)
    ensures r.Served? ==> exists p :: IsPrefix(s.root, p) && IsFile(s.fs, p) && s.fs[p].data == r.data
  {
    var path := RequestedPath(s.root, name);
    if !IsPrefix(s.root, Normalize(path)) then BadRequest else Fetch(s, path)
  }

  /** The part of `get_file` after the containment check: `exists()` and the
      response built on the path as given. */
  function Fetch(s: Server, path: Path): (r: GetResponse)
    requires ValidServer(s)
    requires IsPrefix(s.root, Normalize(path))
    ensures r.Served? ==> exists p :: IsPrefix(s.root, p) && IsFile(s.fs, p) && s.fs[p].data == r.data
  {
    WalkAgreesWithNormalize(s.fs, [], path);
    match Lookup(s.fs, path)
    case None => NotFound
    case Some(p) => if IsFile(s.fs, p) then Served(s.fs[p].data) else NotARegularFile
  }

  /** Fetching an existing entry by its own path. */
  lemma FetchEntry(s: Server, p: Path)
    requires ValidServer(s)
    requires IsPrefix(s.root, p) && IsNormal(p) && Exists(s.fs, p)
    ensures IsPrefix(s.root, Normalize(p))
    ensures Fetch(s, p) == if IsFile(s.fs, p) then Served(s.fs[p].data) else NotARegularFile
  {
    NormalizeOfNormal([], p);
    LookupOfEntry(s.fs, p);
  }

  /** For an entry name the download agrees with the stored objects: their
      content if stored, 404 if nothing is there, and a directory otherwise. */
  lemma GetAgreesWithFiles(s: Server, n: string)
    requires ValidServer(s)
    requires ValidName(n)
    ensures GetFile(s, n) ==
              if n in Files(s.fs, s.root) then Served(Files(s.fs, s.root)[n])
              else if Child(s.root, n) in s.fs then NotARegularFile
              else NotFound
  {
    var c := Child(s.root, n);
    ChildPath(s, n);
    assert Normalize(c) == c by { NormalizeOfNormal([], c); }
    assert GetFile(s, n) == Fetch(s, c) by { SegmentsOfName(n); }
    if c in s.fs {
      FetchEntry(s, c);
    } else {
      assert Lookup(s.fs, c) == None by {
        LookupOfEntry(s.fs, s.root);
        WalkAppend(s.fs, [], s.root, [n]);
      }
    }
  }

  /** The status codes of a download by entry name: 200 exactly for a
      stored object, 404 exactly when nothing is there, and never a 400. */
  lemma DownloadStatus(s: Server, n: string)
    requires ValidServer(s)
    requires ValidName(n)
    ensures Status(GetFile(s, n)) == 200 <==> n in Files(s.fs, s.root)
    ensures Status(GetFile(s, n)) == 404 <==> !Exists(s.fs, Child(s.root, n))
    ensures Status(GetFile(s, n)) != 400
  {
    GetAgreesWithFiles(s, n);
  }

  /** Upload then download returns the uploaded bytes. */
  lemma UploadThenGet(s: Server, filename: string, content: Bytes)
    requires ValidServer(s)
    requires StoreFile(s, filename, content, NoFault).response.Stored?
    ensures var out := StoreFile(s, filename, content, NoFault);
            GetFile(out.server, out.response.filename) == Served(content)
  {
    var out := StoreFile(s, filename, content, NoFault);
    UploadUpdatesFiles(s, filename, content);
    GetAgreesWithFiles(out.server, out.response.filename);
  }

  /** `.` and the empty name both denote the storage directory itself: they
      pass the containment check and the existence check. */
  lemma GetStorageDirectoryItself(s: Server)
    requires ValidServer(s)
    ensures GetFile(s, ".") == NotARegularFile
    ensures GetFile(s, "") == NotARegularFile
  {
    assert RequestedPath(s.root, ".") == s.root && RequestedPath(s.root, "") == s.root by {
      DotSegments();
      assert s.root + [] == s.root;
    }
    GetOfStorageDirectory(s, ".");
    GetOfStorageDirectory(s, "");
  }

  /** A name that denotes the storage directory lands on a directory. */
  lemma GetOfStorageDirectory(s: Server, name: string)
    requires ValidServer(s)
    requires RequestedPath(s.root, name) == s.root
    ensures GetFile(s, name) == NotARegularFile
  {
    RootWellPlaced(s);
    assert IsPrefix(s.root, s.root);
    FetchEntry(s, s.root);
  }

  /** `..` leaves the storage directory and is refused. */
  lemma GetParentRefused(s: Server)
    requires ValidServer(s)
    ensures GetFile(s, "..") == BadRequest
  {
    var root := s.root;
    RootWellPlaced(s);
    DotSegments();
    assert RequestedPath(root, "..") == root + [".."];
    assert Normalize(root + [".."]) == Parent(root) by {
      NormalizeAppend([], root, [".."]);
      NormalizeOfNormal([], root);
    }
  }

  /** A sibling of the storage directory is refused. */
  lemma GetSiblingRefused(s: Server, x: string)
    requires ValidServer(s)
    requires ValidName(x) && x != StorageDirName
    ensures GetFile(s, "../" + x) == BadRequest
  {
    var root := s.root;
    var path := root + ["..", x];
    assert RequestedPath(root, "../" + x) == path by {
      SegmentsUpThenName(x);
      assert ("../" + x)[0] == '.';
    }
    assert Normalize(path) == Parent(root) + [x] by {
      RootWellPlaced(s);
      assert [] + root == root;
      NormalizeAppend([], root, ["..", x]);
      NormalizeOfNormal([], root);
      NormalizeUpThenDown(root, x);
    }
    var r := Normalize(path);
    assert !IsPrefix(root, r) by {
      assert |r| == |root| && r[|root| - 1] == x;
      assert root[|root| - 1] != x;
    }
  }

  /** The check is about where a path ends, not how it is spelled: climbing
      out and back into `storage` reaches the same object. */
  lemma GetReentersStorage(s: Server, n: string)
    requires ValidServer(s)
    requires !IsAbsolute(n)
    ensures GetFile(s, "../storage/" + n) == GetFile(s, n)
  {
    var root, segs := s.root, Segments(n);
    var detour := root + ["..", StorageDirName] + segs;
    var direct := root + segs;
    assert RequestedPath(root, "../storage/" + n) == detour by {
      SegmentsReenter(n);
      assert ("../storage/" + n)[0] == '.';
      assert root + (["..", "storage"] + segs) == detour;
    }
    assert RequestedPath(root, n) == direct;
    assert Normalize(detour) == Normalize(direct) by {
      RootWellPlaced(s);
      DetourNormalizesAway(root, segs);
    }
    assert Lookup(s.fs, detour) == Lookup(s.fs, direct) by {
      DetourWalksAway(s.fs, root, segs);
    }
  }

  /** Lexically, `storage/../storage` is `storage`. */
  lemma DetourNormalizesAway(root: Path, segs: Path)
    requires |root| > 0 && IsNormal(root)
    ensures Normalize(root + ["..", root[|root| - 1]] + segs) == Normalize(root + segs)
  {
    var x := root[|root| - 1];
    NormalizeOfNormal([], root);
    assert [] + root == root;
    NormalizeAppend([], root, ["..", x]);
    NormalizeUpThenDown(root, x);
    assert Parent(root) + [x] == root;
    NormalizeAppend([], root + ["..", x], segs);
    NormalizeAppend([], root, segs);
  }

  /** Physically, too: the walk passes through the parent and back. */
  lemma DetourWalksAway(fs: Fs, root: Path, segs: Path)
    requires Valid(fs)
    requires |root| > 0 && root in fs && fs[root].Dir?
    ensures Lookup(fs, root + ["..", root[|root| - 1]] + segs) == Lookup(fs, root + segs)
  {
    var x := root[|root| - 1];
    assert WellPlaced(fs, root);
    LookupOfEntry(fs, root);
    assert Walk(fs, root, ["..", x]) == Some(root) by {
      assert ["..", x][1..] == [x];
      assert Walk(fs, root, ["..", x]) == Walk(fs, Parent(root), [x]);
      assert Parent(root) + [x] == root;
      assert Walk(fs, Parent(root), [x]) == Walk(fs, root, []);
    }
    WalkAppend(fs, [], root, ["..", x]);
    WalkAppend(fs, [], root + ["..", x], segs);
    WalkAppend(fs, [], root, segs);
  }

  // ---------------------------------------------------------------------
  // GET /files

  /** `list_files`: the names of the stored objects, each once, in the
      directory's own (unspecified) order, and their number. */
  method ListFiles(s: Server) returns (files: seq<string>, count: nat)
    ensures count == |files|
    ensures forall i, j :: 0 <= i < j < |files| ==> files[i] != files[j]
    ensures forall n :: n in files <==> n in Files(s.fs, s.root)
  {
    var stored := Files(s.fs, s.root);
    var remaining := stored.Keys;
    files := [];
    while remaining != {}
      invariant remaining <= stored.Keys
      invariant forall n :: n in files <==> n in stored && n !in remaining
      invariant forall i, j :: 0 <= i < j < |files| ==> files[i] != files[j]
      decreases |remaining|
    {
      var n :| n in remaining;
      files := files + [n];
      remaining := remaining - {n};
    }
    count := |files|;
  }

  // ---------------------------------------------------------------------
  // GET /metrics

  /** The integer fields of the metrics reply. */
  datatype Metrics = Metrics(filesStoredTotal: nat, filesCurrent: nat, totalStorageBytes: nat)

  /** `metrics`: the upload counter, the number of stored objects and the sum
      of their sizes, read from the directory at call time. */
  method GetMetrics(s: Server) returns (m: Metrics)
    ensures m.filesStoredTotal == s.counter
    ensures m.filesCurrent == |Files(s.fs, s.root)|
    ensures m.totalStorageBytes == TotalBytes(Files(s.fs, s.root))
  {
    var stored := Files(s.fs, s.root);
    var files, count := ListFiles(s);
    var total := SumListed(stored, files);
    SumSizesIsTotal(stored, files);
    DistinctCount(files, stored);
    m := Metrics(s.counter, count, total);
  }

  /** `sum(f.stat().st_size for f in files)`, in listing order. */
  method SumListed(stored: map<string, Bytes>, files: seq<string>) returns (total: nat)
    requires forall i :: 0 <= i < |files| ==> files[i] in stored
    ensures total == SumSizes(stored, files)
  {
    total := 0;
    var i := 0;
    while i < |files|
      invariant 0 <= i <= |files|
      invariant total == SumSizes(stored, files[..i])
    {
      assert files[..i + 1][..i] == files[..i];
      total := total + |stored[files[i]]|;
      i := i + 1;
    }
    assert files[..|files|] == files;
  }

  /** A duplicate-free enumeration of the keys of `m` has `|m|` elements. */
  lemma {:induction false} DistinctCount(names: seq<string>, m: map<string, Bytes>)
    requires forall i, j :: 0 <= i < j < |names| ==> names[i] != names[j]
    requires forall n :: n in names <==> n in m
    ensures |names| == |m|
    decreases |names|
  {
    if |names| == 0 {
      assert m.Keys == {};
    } else {
      var x, rest := names[|names| - 1], names[..|names| - 1];
      DropLastEnumeration(m, names, rest, x);
      DistinctCount(rest, m - {x});
      assert (m - {x}).Keys == m.Keys - {x};
    }
  }

  /** Overwriting an object keeps the object count and replaces its size in
      the byte total: the metrics reflect only the latest content. */
  lemma OverwriteMetrics(s: Server, filename: string, content: Bytes)
    requires ValidServer(s)
    requires StoreFile(s, filename, content, NoFault).response.Stored?
    requires Basename(filename) in Files(s.fs, s.root)
    ensures var after := Files(StoreFile(s, filename, content, NoFault).server.fs, s.root);
            var before := Files(s.fs, s.root);
            && |after| == |before|
            && TotalBytes(after) + |before[Basename(filename)]| == TotalBytes(before) + |content|
  {
    UploadUpdatesFiles(s, filename, content);
    TotalBytesReplace(Files(s.fs, s.root), Basename(filename), content);
  }
}

=== FILE: posix_path.dfy ===
/** Lexical POSIX path handling used by the storage service: splitting a
    string on '/', the basename an upload's file name is reduced to, the
    segments pathlib keeps when it parses a path, and lexical normalisation
    of `..` (what `Path.resolve` does when no symbolic link is involved). */
module PosixPath {

  /** An absolute path as the list of its segments; [] is the filesystem root. */
  type Path = seq<string>

  datatype Option<+T> = None | Some(value: T)

  /** A name that can stand for one directory entry. */
  predicate ValidName(n: string) {
    n != "" && n != "." && n != ".." && '/' !in n
  }

  /** A segment pathlib keeps after parsing: an entry name or `..`. */
  predicate IsSegment(x: string) {
    ValidName(x) || x == ".."
  }

  /** Every segment of `p` names an entry: no `.`, `..` or empty segment. */
  predicate IsNormal(p: Path) {
    forall i :: 0 <= i < |p| ==> ValidName(p[i])
  }

  /** `PurePath.is_relative_to`: `root` is a leading run of segments of `p`. */
  predicate IsPrefix(root: Path, p: Path)
    ensures IsPrefix(root, p) <==> |root| <= |p| && p == root + p[|root|..]
  {
    |root| <= |p| && p[..|root|] == root
  }

  function Parent(p: Path): (q: Path)
    ensures |p| > 0 ==> p == q + [p[|p| - 1]]
    ensures |p| == 0 ==> q == []
  {
    if |p| == 0 then [] else p[..|p| - 1]
  }

  /** The proper ancestors of `p`, as pathlib's `p.parents`. */
  function Ancestors(p: Path): set<Path>
    decreases |p|
  {
    if |p| == 0 then {} else {Parent(p)} + Ancestors(Parent(p))
  }

  /** `is_relative_to` as pathlib defines it: `root` is `p` itself or one of
      its parents. */
  lemma {:induction false} IsPrefixIsRelativeTo(root: Path, p: Path)
    ensures IsPrefix(root, p) <==> root == p || root in Ancestors(p)
    decreases |p|
  {
    if |p| > 0 {
      IsPrefixIsRelativeTo(root, Parent(p));
      if IsPrefix(root, p) && root != p {
        assert Parent(p)[..|root|] == root;
      }
      if root in Ancestors(p) && root != Parent(p) {
        assert p[..|root|] == Parent(p)[..|root|];
      }
    }
  }

  function Last(parts: seq<string>): string
    requires |parts| >= 1
  {
    parts[|parts| - 1]
  }

  // ---------------------------------------------------------------------
  // Splitting on '/' and joining back

  /** The components of `s` between '/' characters, as `s.split("/")`. */
  function Split(s: string): (parts: seq<string>)
    ensures |parts| >= 1
    ensures forall i :: 0 <= i < |parts| ==> '/' !in parts[i]
    decreases |s|
  {
    if |s| == 0 then [""]
    else
      var rest := Split(s[1..]);
      if s[0] == '/' then [""] + rest
      else [[s[0]] + rest[0]] + rest[1..]
  }

  /** `"/".join(parts)` */
  function JoinSlash(parts: seq<string>): string
    requires |parts| >= 1
    decreases |parts|
  {
    if |parts| == 1 then parts[0] else parts[0] + "/" + JoinSlash(parts[1..])
  }

  lemma {:induction false} SplitNoSlash(s: string)
    requires '/' !in s
    ensures Split(s) == [s]
    decreases |s|
  {
    if |s| > 0 {
      SplitNoSlash(s[1..]);
      assert [s[0]] + s[1..] == s;
    }
  }

  /** Splitting distributes over a '/' joint. */
  lemma {:induction false} SplitAppend(a: string, b: string)
    ensures Split(a + "/" + b) == Split(a) + Split(b)
    decreases |a|
  {
    var s := a + "/" + b;
    if |a| == 0 {
      assert s[0] == '/' && s[1..] == b;
    } else {
      assert s[0] == a[0];
      assert s[1..] == a[1..] + "/" + b;
      SplitAppend(a[1..], b);
    }
  }

  /** Joining the components of a string restores the string. */
  lemma {:induction false} JoinSplit(s: string)
    ensures JoinSlash(Split(s)) == s
    decreases |s|
  {
    if |s| > 0 {
      var rest := Split(s[1..]);
      JoinSplit(s[1..]);
      if s[0] == '/' {
        assert Split(s)[1..] == rest;
      } else if |rest| == 1 {
        assert [s[0]] + s[1..] == s;
      } else {
        var parts := Split(s);
        assert parts[1..] == rest[1..];
        assert JoinSlash(rest) == rest[0] + "/" + JoinSlash(rest[1..]);
        assert [s[0]] + s[1..] == s;
      }
    }
  }

  /** Splitting a join of slash-free components restores the components. */
  lemma {:induction false} SplitJoin(parts: seq<string>)
    requires |parts| >= 1
    requires forall i :: 0 <= i < |parts| ==> '/' !in parts[i]
    ensures Split(JoinSlash(parts)) == parts
    decreases |parts|
  {
    SplitNoSlash(parts[0]);
    if |parts| > 1 {
      SplitJoin(parts[1..]);
      SplitAppend(parts[0], JoinSlash(parts[1..]));
      assert [parts[0]] + parts[1..] == parts;
    }
  }

  // ---------------------------------------------------------------------
  // os.path.basename

  /** Index of the last occurrence of `c` in `s`, or -1 when there is none
      (Python's `str.rfind`). */
  function RFind(s: string, c: char): (i: int)
    ensures -1 <= i < |s|
    ensures 0 <= i ==> s[i] == c
    ensures forall j :: i < j < |s| ==> s[j] != c
    decreases |s|
  {
    if |s| == 0 then -1
    else if s[|s| - 1] == c then |s| - 1
    else RFind(s[..|s| - 1], c)
  }

  /** POSIX `os.path.basename`: the text after the last '/'. The result is
      a slash-free suffix of `s` that is either all of `s` or preceded by a
      '/'. */
  function Basename(s: string): (b: string)
    ensures '/' !in b
    ensures |b| <= |s| && b == s[|s| - |b|..]
    ensures |b| < |s| ==> s[|s| - |b| - 1] == '/'
  {
    s[RFind(s, '/') + 1..]
  }

  /** The basename is the last '/'-separated component. */
  lemma BasenameIsLastComponent(s: string)
    ensures Basename(s) == Last(Split(s))
  {
    var i := RFind(s, '/');
    if i < 0 {
      assert forall k :: 0 <= k < |s| ==> s[k] != '/';
      SplitNoSlash(s);
    } else {
      var a, b := s[..i], s[i + 1..];
      assert s == a + "/" + b;
      assert forall k :: 0 <= k < |b| ==> b[k] == s[i + 1 + k];
      assert '/' !in b;
      SplitAppend(a, b);
      SplitNoSlash(b);
    }
  }

  /** Whatever precedes the last '/' does not affect the basename. */
  lemma BasenameAfterDirectory(d: string, n: string)
    requires '/' !in n
    ensures Basename(d + "/" + n) == n
  {
    var s := d + "/" + n;
    BasenameIsLastComponent(s);
    SplitAppend(d, n);
    SplitNoSlash(n);
  }

  // ---------------------------------------------------------------------
  // pathlib parsing

  /** A name without '/' is its own basename. */
  lemma BasenameOfSlashFree(n: string)
    requires '/' !in n
    ensures Basename(n) == n
  {
  }

  /** An entry name is its own basename. */
  lemma BasenameOfName(n: string)
    requires ValidName(n)
    ensures Basename(n) == n
  {
  }

  /** Drop the empty and `.` components, as pathlib does when it parses. */
  function Clean(parts: seq<string>): (r: seq<string>)
    ensures forall i :: 0 <= i < |r| ==> r[i] != "" && r[i] != "."
    ensures (forall i :: 0 <= i < |parts| ==> '/' !in parts[i]) ==>
              forall i :: 0 <= i < |r| ==> '/' !in r[i]
    decreases |parts|
  {
    if |parts| == 0 then []
    else if parts[0] == "" || parts[0] == "." then Clean(parts[1..])
    else [parts[0]] + Clean(parts[1..])
  }

  lemma {:induction false} CleanAppend(a: seq<string>, b: seq<string>)
    ensures Clean(a + b) == Clean(a) + Clean(b)
    decreases |a|
  {
    if |a| == 0 {
      assert a + b == b;
    } else {
      assert (a + b)[0] == a[0];
      assert (a + b)[1..] == a[1..] + b;
      CleanAppend(a[1..], b);
      if a[0] != "" && a[0] != "." {
        assert Clean(a + b) == [a[0]] + Clean(a[1..] + b);
        assert Clean(a) == [a[0]] + Clean(a[1..]);
        assert [a[0]] + (Clean(a[1..]) + Clean(b)) == ([a[0]] + Clean(a[1..])) + Clean(b);
      } else {
        assert Clean(a + b) == Clean(a[1..] + b);
        assert Clean(a) == Clean(a[1..]);
      }
    }
  }

  /** The segments pathlib keeps of `s`: every one is an entry name or `..`. */
  function Segments(s: string): (segs: Path)
    ensures forall i :: 0 <= i < |segs| ==> IsSegment(segs[i])
  {
    Clean(Split(s))
  }

  predicate IsAbsolute(s: string) {
    |s| > 0 && s[0] == '/'
  }

  lemma SegmentsAppend(a: string, b: string)
    ensures Segments(a + "/" + b) == Segments(a) + Segments(b)
  {
    SplitAppend(a, b);
    CleanAppend(Split(a), Split(b));
  }

  /** A single entry name is parsed as itself. */
  lemma SegmentsOfName(n: string)
    requires ValidName(n)
    ensures Segments(n) == [n]
  {
    SplitNoSlash(n);
    assert Clean([n]) == [n] + Clean([]);
  }

  /** The empty name and `.` have no segments; `..` is kept. */
  lemma DotSegments()
    ensures Segments("") == []
    ensures Segments(".") == []
    ensures Segments("..") == [".."]
  {
    assert Split("") == [""];
    SplitNoSlash(".");
    SplitNoSlash("..");
    assert Clean([""]) == Clean([]);
    assert Clean(["."]) == Clean([]);
    assert Clean([".."]) == [".."] + Clean([]);
  }

  /** A leading segment followed by '/' is parsed off the front. */
  lemma SegmentsCons(d: string, n: string)
    requires IsSegment(d)
    ensures Segments(d + "/" + n) == [d] + Segments(n)
  {
    SegmentsAppend(d, n);
    SplitNoSlash(d);
    assert Clean([d]) == [d] + Clean([]);
  }

  /** `../x` parses as `..` and `x`. */
  lemma SegmentsUpThenName(x: string)
    requires ValidName(x)
    ensures Segments("../" + x) == ["..", x]
  {
    assert "../" + x == ".." + "/" + x;
    SegmentsCons("..", x);
    SegmentsOfName(x);
  }

  /** `../storage/n` parses as `..`, `storage`, then the segments of `n`. */
  lemma SegmentsReenter(n: string)
    ensures Segments("../storage/" + n) == ["..", "storage"] + Segments(n)
  {
    var tail := "storage/" + n;
    assert "../storage/" + n == ".." + "/" + tail;
    assert tail == "storage" + "/" + n;
    SegmentsCons("..", tail);
    SegmentsCons("storage", n);
  }

  // ---------------------------------------------------------------------
  // Lexical normalisation

  /** Resolve `segs` lexically starting in `cur`: `..` drops the last
      segment (and stays put at the filesystem root), a name is appended. */
  function NormalizeFrom(cur: Path, segs: Path): (r: Path)
    ensures IsNormal(cur) && (forall i :: 0 <= i < |segs| ==> IsSegment(segs[i])) ==> IsNormal(r)
    decreases |segs|
  {
    if |segs| == 0 then cur
    else if segs[0] == ".." then NormalizeFrom(Parent(cur), segs[1..])
    else NormalizeFrom(cur + [segs[0]], segs[1..])
  }

  function Normalize(p: Path): Path {
    NormalizeFrom([], p)
  }

  lemma {:induction false} NormalizeAppend(cur: Path, a: Path, b: Path)
    ensures NormalizeFrom(cur, a + b) == NormalizeFrom(NormalizeFrom(cur, a), b)
    decreases |a|
  {
    if |a| == 0 {
      assert a + b == b;
    } else {
      assert (a + b)[0] == a[0] && (a + b)[1..] == a[1..] + b;
      if a[0] == ".." {
        assert NormalizeFrom(cur, a + b) == NormalizeFrom(Parent(cur), a[1..] + b);
        assert NormalizeFrom(cur, a) == NormalizeFrom(Parent(cur), a[1..]);
        NormalizeAppend(Parent(cur), a[1..], b);
      } else {
        assert NormalizeFrom(cur, a + b) == NormalizeFrom(cur + [a[0]], a[1..] + b);
        assert NormalizeFrom(cur, a) == NormalizeFrom(cur + [a[0]], a[1..]);
        NormalizeAppend(cur + [a[0]], a[1..], b);
      }
    }
  }

  /** A path without `..` is left as it is. */
  lemma {:induction false} NormalizeOfNormal(cur: Path, p: Path)
    requires IsNormal(p)
    ensures NormalizeFrom(cur, p) == cur + p
    decreases |p|
  {
    if |p| > 0 {
      assert ValidName(p[0]);
      NormalizeOfNormal(cur + [p[0]], p[1..]);
      assert cur + [p[0]] + p[1..] == cur + p;
    }
  }

  /** One `..` and then a name. */
  lemma NormalizeUpThenDown(cur: Path, x: string)
    requires x != ".."
    ensures NormalizeFrom(cur, ["..", x]) == Parent(cur) + [x]
  {
    assert ["..", x][1..] == [x];
    assert [x][1..] == [];
    assert NormalizeFrom(cur, ["..", x]) == NormalizeFrom(Parent(cur), [x]);
    assert NormalizeFrom(Parent(cur), [x]) == NormalizeFrom(Parent(cur) + [x], []);
  }

  /** Normalising twice is normalising once. */
  lemma NormalizeIdempotent(p: Path)
    requires forall i :: 0 <= i < |p| ==> IsSegment(p[i])
    ensures Normalize(Normalize(p)) == Normalize(p)
  {
    NormalizeOfNormal([], Normalize(p));
  }
}

=== FILE: service.dfy ===
/** The service as a sequence of requests against one process. Requests are
    applied one after another: inside `store_file` the only suspension point
    is the body read, which comes before the existence test, so on a single
    event loop the test, the write and the counter update of one upload are
    not interleaved with another request. Only uploads change the state. */
module Service {
  import opened PosixPath
  import opened FileSystem
  import opened Store
  import opened Handlers

  datatype Request =
    | Download(name: string)
    | Upload(filename: string, content: Bytes, fault: Fault)
    | List
    | ReadMetrics

  /** The state after one request. */
  function Next(s: Server, r: Request): (s': Server)
    requires ValidServer(s)
    ensures ValidServer(s') && s'.root == s.root
    ensures s'.counter >= s.counter
    ensures !r.Upload? ==> s' == s
  {
    match r
    case Upload(filename, content, fault) => StoreFile(s, filename, content, fault).server
    case _ => s
  }

  /** The state after a sequence of requests. The counter never decreases. */
  function Run(s: Server, rs: seq<Request>): (s': Server)
    requires ValidServer(s)
    ensures ValidServer(s') && s'.root == s.root
    ensures s'.counter >= s.counter
    decreases |rs|
  {
    if |rs| == 0 then s else Run(Next(s, rs[0]), rs[1..])
  }

  /** The closed-model invariant: the counter equals the number of stored
      objects. */
  predicate CounterMatchesFiles(s: Server) {
    s.counter == |Files(s.fs, s.root)|
  }

  /** The request is not an upload whose write failed after the file was
      opened. */
  predicate NoPartialWrite(r: Request) {
    !(r.Upload? && r.fault.WriteFailsAfter?)
  }

  /** The request does not leave an uncounted file behind: it is not an
      interrupted upload of an entry name that is not yet present. An
      interrupted overwrite is harmless, because the name was counted. */
  predicate LeavesNothingUncounted(s: Server, r: Request) {
    !(&& r.Upload? && r.fault.WriteFailsAfter?
      && ValidName(Basename(r.filename)) && Child(s.root, Basename(r.filename)) !in s.fs)
  }

  /** Every request of the run leaves nothing uncounted in the state it
      meets. */
  predicate RunLeavesNothingUncounted(s: Server, rs: seq<Request>)
    requires ValidServer(s)
    decreases |rs|
  {
    |rs| == 0 || (LeavesNothingUncounted(s, rs[0]) && RunLeavesNothingUncounted(Next(s, rs[0]), rs[1..]))
  }

  /** A run without interrupted writes leaves nothing uncounted. */
  lemma {:induction false} NoPartialWriteLeavesNothingUncounted(s: Server, rs: seq<Request>)
    requires ValidServer(s)
    requires forall i :: 0 <= i < |rs| ==> NoPartialWrite(rs[i])
    ensures RunLeavesNothingUncounted(s, rs)
    decreases |rs|
  {
    if |rs| > 0 {
      assert forall i :: 0 <= i < |rs[1..]| ==> rs[1..][i] == rs[i + 1];
      NoPartialWriteLeavesNothingUncounted(Next(s, rs[0]), rs[1..]);
    }
  }

  /** Every request that leaves nothing uncounted keeps the invariant. */
  lemma NextKeepsCounterInvariant(s: Server, r: Request)
    requires ValidServer(s)
    requires CounterMatchesFiles(s)
    requires LeavesNothingUncounted(s, r)
    ensures CounterMatchesFiles(Next(s, r))
  {
    if r.Upload? {
      UploadKeepsCounterInvariant(s, r.filename, r.content, r.fault);
    }
  }

  /** An upload keeps the invariant unless it is an interrupted write of an
      entry name that was not there. */
  lemma UploadKeepsCounterInvariant(s: Server, filename: string, content: Bytes, fault: Fault)
    requires ValidServer(s)
    requires CounterMatchesFiles(s)
    requires fault.WriteFailsAfter? ==>
               !ValidName(Basename(filename)) || Child(s.root, Basename(filename)) in s.fs
    ensures CounterMatchesFiles(StoreFile(s, filename, content, fault).server)
  {
    var out := StoreFile(s, filename, content, fault);
    if out.response.Stored? {
      var name, m := Basename(filename), Files(s.fs, s.root);
      assert Files(out.server.fs, s.root) == m[name := content] by {
        FilesAfterWrite(s.fs, s.root, name, content);
      }
      assert out.server.counter == s.counter + (if name in m then 0 else 1) by {
        assert Child(s.root, name) in s.fs <==> IsFile(s.fs, Child(s.root, name));
      }
      MapUpdateSize(m, name, content);
    } else if fault.WriteFailsAfter? && ValidName(Basename(filename)) {
      var name := Basename(filename);
      assert out == StoreNamed(s, name, content, fault);
      InterruptedOverwriteKeepsCounter(s, name, content, fault.written);
    }
  }

  /** A write interrupted over a name already present leaves the counter
      right: a stored object stays stored, and a directory stops the upload
      before the open. */
  lemma InterruptedOverwriteKeepsCounter(s: Server, n: string, content: Bytes, k: nat)
    requires ValidServer(s)
    requires CounterMatchesFiles(s)
    requires ValidName(n) && Child(s.root, n) in s.fs
    ensures CounterMatchesFiles(StoreNamed(s, n, content, WriteFailsAfter(k)).server)
  {
    var out := StoreNamed(s, n, content, WriteFailsAfter(k));
    if !IsDir(s.fs, Child(s.root, n)) {
      var m, kept := Files(s.fs, s.root), Truncated(content, k);
      assert out.server.fs == s.fs[Child(s.root, n) := File(kept)];
      assert n in m;
      FilesAfterWrite(s.fs, s.root, n, kept);
      MapUpdateSize(m, n, kept);
    }
  }

  /** In a closed model, where nothing but the service touches the storage
      directory and no write of a new name is interrupted, the counter
      equals the number of stored objects after every request. */
  lemma {:induction false} RunKeepsCounterInvariant(s: Server, rs: seq<Request>)
    requires ValidServer(s)
    requires CounterMatchesFiles(s)
    requires RunLeavesNothingUncounted(s, rs)
    ensures CounterMatchesFiles(Run(s, rs))
    decreases |rs|
  {
    if |rs| > 0 {
      NextKeepsCounterInvariant(s, rs[0]);
      RunKeepsCounterInvariant(Next(s, rs[0]), rs[1..]);
    }
  }

  /** From start-up on, the invariant holds: the counter is seeded with the
      number of stored objects and only uploads change either side. */
  lemma BootThenRun(fs: Fs, root: Path, rs: seq<Request>)
    requires Valid(fs)
    requires |root| >= 1 && root[|root| - 1] == StorageDirName
    requires IsNormal(root) && IsDir(fs, Parent(root))
    requires !IsFile(fs, root)
    requires RunLeavesNothingUncounted(Boot(fs, root).value, rs)
    ensures CounterMatchesFiles(Run(Boot(fs, root).value, rs))
  {
    RunKeepsCounterInvariant(Boot(fs, root).value, rs);
  }

  /** An upload of a new name whose write fails after opening leaves a file
      behind without counting it: the invariant needs the hypothesis that no
      such request occurs. */
  lemma InterruptedWriteDesyncsCounter(s: Server, n: string, content: Bytes, k: nat)
    requires ValidServer(s)
    requires CounterMatchesFiles(s)
    requires ValidName(n) && Child(s.root, n) !in s.fs
    ensures var after := StoreFile(s, n, content, WriteFailsAfter(k)).server;
            |Files(after.fs, after.root)| == after.counter + 1
  {
    var kept := Truncated(content, k);
    var after := StoreFile(s, n, content, WriteFailsAfter(k)).server;
    assert after.fs == s.fs[Child(s.root, n) := File(kept)] by {
      BasenameOfName(n);
      assert StoreFile(s, n, content, WriteFailsAfter(k)) == StoreNamed(s, n, content, WriteFailsAfter(k));
    }
    FilesAfterWrite(s.fs, s.root, n, kept);
    MapUpdateSize(Files(s.fs, s.root), n, kept);
  }

  /** Uploads whose sanitised names are distinct and new, each completing,
      raise the counter by exactly their number: no upload is lost and none
      counted twice. Directory parts of the client's file names are
      dropped, as the name check does. */
  lemma {:induction false} DistinctNewUploadsCount(s: Server, rs: seq<Request>)
    requires ValidServer(s)
    requires forall i :: 0 <= i < |rs| ==> rs[i].Upload? && rs[i].fault == NoFault
    requires forall i :: 0 <= i < |rs| ==>
               ValidName(Basename(rs[i].filename)) && Child(s.root, Basename(rs[i].filename)) !in s.fs
    requires forall i, j :: 0 <= i < j < |rs| ==> Basename(rs[i].filename) != Basename(rs[j].filename)
    ensures Run(s, rs).counter == s.counter + |rs|
    decreases |rs|
  {
    if |rs| > 0 {
      var r, rest := rs[0], rs[1..];
      var s' := Next(s, r);
      assert s' == StoreFile(s, r.filename, r.content, NoFault).server;
      CompletedNewUpload(s, r.filename, r.content);
      forall i | 0 <= i < |rest|
        ensures rest[i].Upload? && rest[i].fault == NoFault
        ensures ValidName(Basename(rest[i].filename)) && Child(s'.root, Basename(rest[i].filename)) !in s'.fs
      {
        assert rest[i] == rs[i + 1];
        ChildrenDiffer(s.root, Basename(rest[i].filename), Basename(r.filename));
      }
      forall i, j | 0 <= i < j < |rest| && rest[i].Upload? && rest[j].Upload?
        ensures Basename(rest[i].filename) != Basename(rest[j].filename)
      {
        assert rest[i] == rs[i + 1] && rest[j] == rs[j + 1];
      }
      DistinctNewUploadsCount(s', rest);
    }
  }

  /** A completed upload whose sanitised name is new adds that file and
      counts it. */
  lemma CompletedNewUpload(s: Server, f: string, content: Bytes)
    requires ValidServer(s)
    requires ValidName(Basename(f)) && Child(s.root, Basename(f)) !in s.fs
    ensures StoreFile(s, f, content, NoFault).server.fs == s.fs[Child(s.root, Basename(f)) := File(content)]
    ensures StoreFile(s, f, content, NoFault).server.counter == s.counter + 1
  {
    assert !IsDir(s.fs, Child(s.root, Basename(f)));
  }
}

=== FILE: store.dfy ===
/** The state of the running service: the host filesystem, the absolute path
    of the storage directory, and the in-memory upload counter. The stored
    objects are not kept separately: they are the regular files directly
    inside the storage directory, read off the filesystem (`Files`). */
module Store {
  import opened PosixPath
  import opened FileSystem

  /** The storage directory's own name, relative to the working directory. */
  const StorageDirName := "storage"

  datatype Server = Server(root: Path, fs: Fs, counter: nat)

  /** The storage directory exists as a directory of a well-formed tree. */
  predicate ValidServer(s: Server) {
    && Valid(s.fs)
    && |s.root| >= 1
    && s.root[|s.root| - 1] == StorageDirName
    && IsDir(s.fs, s.root)
  }

  /** The storage directory's own path is normal and its parent exists. */
  lemma RootWellPlaced(s: Server)
    requires ValidServer(s)
    ensures IsNormal(s.root) && IsDir(s.fs, Parent(s.root))
  {
    assert WellPlaced(s.fs, s.root);
  }

  /** The path of the entry called `n` directly inside `dir`. */
  function Child(dir: Path, n: string): Path {
    dir + [n]
  }

  /** Distinct names denote distinct entries of one directory. */
  lemma ChildrenDiffer(dir: Path, a: string, b: string)
    requires a != b
    ensures Child(dir, a) != Child(dir, b)
  {
    assert Child(dir, a)[|dir|] == a;
  }

  /** The stored objects: name to content for every regular file directly
      inside `root` (what `iterdir()` filtered by `is_file()` yields).
      Subdirectories and anything below them are not stored objects. */
  function Files(fs: Fs, root: Path): (m: map<string, Bytes>)
    ensures forall n :: IsFile(fs, Child(root, n)) ==> n in m
    ensures forall n :: n in m ==> IsFile(fs, Child(root, n)) && m[n] == fs[Child(root, n)].data
  {
    var names := set p | p in fs && |p| == |root| + 1 && p[..|root|] == root && fs[p].File? :: p[|root|];
    assert forall n :: IsFile(fs, Child(root, n)) ==> Child(root, n)[..|root|] == root && Child(root, n)[|root|] == n;
    map n | n in names && IsFile(fs, Child(root, n)) :: fs[Child(root, n)].data
  }

  /** The path of a stored object's name: normal, inside the storage
      directory, and with the storage directory as its parent. */
  lemma ChildPath(s: Server, n: string)
    requires ValidServer(s)
    requires ValidName(n)
    ensures IsNormal(Child(s.root, n)) && IsPrefix(s.root, Child(s.root, n))
    ensures Parent(Child(s.root, n)) == s.root
  {
    RootWellPlaced(s);
    var c := Child(s.root, n);
    assert c[..|s.root|] == s.root;
    assert forall i :: 0 <= i < |c| ==> c[i] == if i < |s.root| then s.root[i] else n;
  }

  /** Writing a regular file directly inside the storage directory changes
      that one stored object and no other. */
  lemma FilesAfterWrite(fs: Fs, root: Path, n: string, data: Bytes)
    ensures Files(fs[Child(root, n) := File(data)], root) == Files(fs, root)[n := data]
  {
    var fs' := fs[Child(root, n) := File(data)];
    var m, m' := Files(fs, root), Files(fs', root);
    var u := m[n := data];
    forall x ensures (x in m' <==> x in u) && (x in m' ==> m'[x] == u[x]) {
      if x != n {
        assert Child(root, x) != Child(root, n) by {
          assert Child(root, x)[|root|] == x;
        }
        assert IsFile(fs', Child(root, x)) == IsFile(fs, Child(root, x));
      } else {
        assert IsFile(fs', Child(root, n));
      }
    }
    assert m'.Keys == u.Keys;
  }

  /** Adding a new name grows a map by one; replacing keeps its size. */
  lemma MapUpdateSize(m: map<string, Bytes>, n: string, c: Bytes)
    ensures |m[n := c]| == |m| + (if n in m then 0 else 1)
  {
    if n in m {
      assert m[n := c].Keys == m.Keys;
    } else {
      assert m[n := c].Keys == m.Keys + {n};
    }
  }

  /** Under a well-formed tree every stored object has an entry name. */
  lemma FilesHaveValidNames(s: Server)
    requires ValidServer(s)
    ensures forall n :: n in Files(s.fs, s.root) ==> ValidName(n)
  {
    forall n | n in Files(s.fs, s.root)
      ensures ValidName(n)
    {
      var p := Child(s.root, n);
      assert WellPlaced(s.fs, p);
      assert p[|p| - 1] == n;
    }
  }

  // ---------------------------------------------------------------------
  // Sum of the stored sizes

  ghost function Pick(m: map<string, Bytes>): (n: string)
    requires |m| > 0
    ensures n in m
  {
    var n :| n in m; n
  }

  /** The number of bytes held by all objects of `m`, summed in an arbitrary
      order. */
  ghost function TotalBytes(m: map<string, Bytes>): nat
    decreases |m|
  {
    if |m| == 0 then 0
    else
      var n := Pick(m);
      assert (m - {n}).Keys == m.Keys - {n};
      |m[n]| + TotalBytes(m - {n})
  }

  /** The sum does not depend on which object is taken first. */
  lemma {:induction false} TotalBytesRemove(m: map<string, Bytes>, n: string)
    requires n in m
    ensures TotalBytes(m) == |m[n]| + TotalBytes(m - {n})
    decreases |m|
  {
    var k := Pick(m);
    assert (m - {k}).Keys == m.Keys - {k};
    if k != n {
      assert (m - {n}).Keys == m.Keys - {n};
      TotalBytesRemove(m - {k}, n);
      TotalBytesRemove(m - {n}, k);
      assert m - {k} - {n} == m - {n} - {k};
    }
  }

  /** Replacing one object's content keeps the object count and swaps its
      size in the total. */
  lemma TotalBytesReplace(m: map<string, Bytes>, n: string, c: Bytes)
    requires n in m
    ensures |m[n := c]| == |m|
    ensures TotalBytes(m[n := c]) + |m[n]| == TotalBytes(m) + |c|
  {
    var m' := m[n := c];
    assert m'.Keys == m.Keys;
    TotalBytesRemove(m, n);
    TotalBytesRemove(m', n);
    assert m' - {n} == m - {n};
  }

  /** Sum of the sizes of the objects named by `names`, in that order. */
  function SumSizes(m: map<string, Bytes>, names: seq<string>): nat
    requires forall i :: 0 <= i < |names| ==> names[i] in m
    decreases |names|
  {
    if |names| == 0 then 0
    else SumSizes(m, names[..|names| - 1]) + |m[names[|names| - 1]]|
  }

  /** Summing along any enumeration of the names, each once, gives the total. */
  lemma {:induction false} SumSizesIsTotal(m: map<string, Bytes>, names: seq<string>)
    requires forall i, j :: 0 <= i < j < |names| ==> names[i] != names[j]
    requires forall n :: n in names <==> n in m
    ensures SumSizes(m, names) == TotalBytes(m)
    decreases |names|
  {
    if |names| > 0 {
      var x := names[|names| - 1];
      var rest := names[..|names| - 1];
      var m' := m - {x};
      assert SumSizes(m', rest) == TotalBytes(m') by {
        DropLastEnumeration(m, names, rest, x);
        SumSizesIsTotal(m', rest);
      }
      assert SumSizes(m, rest) == SumSizes(m', rest) by {
        forall i | 0 <= i < |rest| ensures rest[i] in m' && m[rest[i]] == m'[rest[i]] {
          assert rest[i] == names[i];
        }
        SumSizesSameValues(m, m', rest);
      }
      TotalBytesRemove(m, x);
    } else {
      assert m.Keys == {};
    }
  }

  /** Dropping the last name of an enumeration enumerates the rest. */
  lemma DropLastEnumeration(m: map<string, Bytes>, names: seq<string>, rest: seq<string>, x: string)
    requires |names| > 0 && rest == names[..|names| - 1] && x == names[|names| - 1]
    requires forall i, j :: 0 <= i < j < |names| ==> names[i] != names[j]
    requires forall n :: n in names <==> n in m
    ensures forall n :: n in rest <==> n in m - {x}
  {
    forall n ensures n in rest <==> n in m - {x} {
      if n in rest {
        var i :| 0 <= i < |rest| && rest[i] == n;
        assert names[i] == n && i < |names| - 1;
      }
      if n in m - {x} {
        var i :| 0 <= i < |names| && names[i] == n;
        assert i != |names| - 1;
        assert rest[i] == n;
      }
    }
  }

  lemma {:induction false} SumSizesSameValues(m: map<string, Bytes>, m': map<string, Bytes>, names: seq<string>)
    requires forall i :: 0 <= i < |names| ==> names[i] in m && names[i] in m' && m[names[i]] == m'[names[i]]
    ensures SumSizes(m, names) == SumSizes(m', names)
    decreases |names|
  {
    if |names| > 0 {
      SumSizesSameValues(m, m', names[..|names| - 1]);
    }
  }

  // ---------------------------------------------------------------------
  // Start-up

  /** Process start: `mkdir(exist_ok=True)` creates the storage directory when
      it is missing and fails when a regular file is in its place; the upload
      counter is seeded with the number of stored objects already there. */
  function Boot(fs: Fs, root: Path): (s: Option<Server>)
    requires Valid(fs)
    requires |root| >= 1 && root[|root| - 1] == StorageDirName
    requires IsNormal(root) && IsDir(fs, Parent(root))
    ensures s.None? <==> IsFile(fs, root)
    ensures s.Some? ==> ValidServer(s.value) && s.value.root == root
    ensures s.Some? ==> Files(s.value.fs, root) == Files(fs, root)
    ensures s.Some? ==> s.value.counter == |Files(fs, root)|
  {
    if IsFile(fs, root) then None
    else
      var fs' := StorageDirectory(fs, root);
      Some(Server(root, fs', |Files(fs', root)|))
  }

  /** The filesystem after `mkdir(exist_ok=True)` of an absent or existing
      storage directory: the stored objects are those already there. */
  function StorageDirectory(fs: Fs, root: Path): (fs': Fs)
    requires Valid(fs)
    requires |root| >= 1 && IsNormal(root) && IsDir(fs, Parent(root))
    requires !IsFile(fs, root)
    ensures Valid(fs') && IsDir(fs', root)
    ensures Files(fs', root) == Files(fs, root)
  {
    if root in fs then fs
    else
      BootCreatesEmptyStorage(fs, root);
      fs[root := Dir]
  }

  /** A storage directory created at start-up is a valid, empty one. */
  lemma BootCreatesEmptyStorage(fs: Fs, root: Path)
    requires Valid(fs)
    requires |root| >= 1 && IsNormal(root) && IsDir(fs, Parent(root))
    requires root !in fs
    ensures Valid(fs[root := Dir])
    ensures Files(fs[root := Dir], root) == map[]
    ensures Files(fs, root) == map[]
  {
    var fs' := fs[root := Dir];
    forall p | p in fs' ensures WellPlaced(fs', p) {
      if p != root {
        assert WellPlaced(fs, p);
      }
    }
    forall n ensures !IsFile(fs', Child(root, n)) && !IsFile(fs, Child(root, n)) {
      var c := Child(root, n);
      assert Parent(c) == root;
      assert c in fs ==> WellPlaced(fs, c);
    }
  }
}
